=== FILE: README.md ===
# NovaSphere bookkeeping core in Dafny

A Dafny model of the core of NovaSphere (the `nova-mvp` repository). This is
a small React bookkeeping app for a shop. It keeps two lists in the browser:

- **transactions**: sales and expenses, newest first;
- **products**: stock with a sale price, a cost price and a quantity.

`App.tsx` owns both lists. It exposes five operations:

- `addTransaction` records a transaction. A sale of a named product also takes stock, floored at 0.
- `addProduct` adds a product to the list.
- `editProduct` replaces a product under its id.
- `deleteProduct` removes a product.
- `deleteTransaction` removes a transaction.

`App.tsx` also derives the headline metrics: revenue, expenses, net profit,
margin and count. The views read the lists and feed the operations:

- the transaction form checks the amount and the stock before it submits;
- the product form checks required fields and signs;
- the inventory view provides the search, the add-or-edit dispatch and the colour bands;
- the dashboard shows a per-day chart and the latest transactions;
- the reports show the best margins, low stock and recent purchases.

Everything is modelled as pure functions over immutable values:

| file | module | what it models |
|---|---|---|
| `types.dfy` | `Types` | the records, drafts without id, and `products.find` |
| `seqs.dfy` | `Seqs` | `filter`, `sort` and `slice` as list functions, with their laws |
| `metrics.dfy` | `Metrics` | the metrics derivation |
| `ledger.dfy` | `LedgerEngine` | the five operations, and a `Command` type that dispatches them |
| `storage.dfy` | `ProductStore` | the start-up choice between the stored products and the seeds |
| `transaction_form.dfy` | `TransactionForm` | the transaction form |
| `product_form.dfy` | `ProductForm` | the product form |
| `inventory.dfy` | `Inventory` | the inventory view |
| `reports.dfy` | `Reports` | the reports view |
| `dashboard.dfy` | `Dashboard` | the dashboard |
| `flows.dfy` | `Flows` | properties that cross views: a form submission carried through its handler |

Modelling choices:

- Money is `real` and quantities are `int`. Dates are opaque strings compared for equality.
- The `type` field of a transaction is called `kind`, because `type` is a Dafny keyword.
- A numeric text field of a form is `Input<T>`: `Empty` for `''`, or `Typed(v)`.
- The ids the source draws at random are parameters. The operations require them to be unused.

Points about the source that shape the model:

- **The stock-decrement guard.** The guard at App.tsx:91 is JavaScript truthiness.
  - A sale takes stock only when the product id is non-empty and the quantity is a number other than 0.
  - A quantity that does not parse (`NaN`) takes no stock. Neither does the quantity 0.
- **The cost price is optional.** types.ts declares `costPrice` required. Every reader of it handles its absence:
  - App.tsx:37 tests whether the key is present;
  - Reports.tsx:19 uses `|| 0`;
  - InventoryList.tsx:102 shows `-` without it;
  - ProductForm.tsx:17 uses `?.`.

  So `Product.costPrice` is an `Option<real>`.
- **Loading the transactions.** App.tsx:24-27 parses the stored transaction list without `try`, so a corrupt list throws at start-up. That load is left out (see below).
- **The report margin when the price is not positive.** Reports.tsx:19 gives such a product the margin 0.
- **Negative sale quantities.**
  - `handleSubmit` (TransactionForm.tsx:45-51) checks a sale's quantity only against the stock, from above.
  - The lower bound is left to the quantity input's `min="1"` (TransactionForm.tsx:110), which the browser enforces and the model does not.
  - A negative quantity that gets past the input would put units back into stock (`Flows.NegativeSaleRestocks`).
  - Stock never becomes negative, because the product form rejects negative quantities (`LedgerEngine.ApplyPreservesWellFormed`).
- **Emptying the inventory reseeds it.** Deleting every product saves `[]` (App.tsx:58-60), and the next start replaces an empty list with the five sample products (App.tsx:37-49). So the seeds are not written once only (`Flows.DeletingEveryProductReseeds`).
- **The reports view is not mounted.** `components/Reports.tsx` is never imported by `App.tsx`. It is modelled as a function of the same two lists.

## Model

| member | source | states |
|---|---|---|
| Types.FindProduct | components/TransactionForm.tsx:46 | The lookup finds nothing exactly when no listed product has the id. When it finds something, that is the first listed product with the id: no earlier product has it. |
| Types.FindDistinct | components/TransactionForm.tsx:46 | With unique ids, looking up a listed product's id finds exactly that product. |
| Metrics.ComputeMetrics | App.tsx:62-81 | Revenue and expenses equal independent per-kind totals. Net profit is revenue minus expenses. The margin is net/revenue·100 when revenue is positive and 0 otherwise. The count is the number of transactions. |
| Metrics.FilterSumIsTotal | App.tsx:63-69 | Filtering by kind and then adding up the amounts gives the per-kind total. |
| Metrics.RevenueConcat | App.tsx:63-69 | Revenue and expenses are additive over concatenated lists. |
| Metrics.RevenuePlusExpenses | App.tsx:63-69 | Revenue plus expenses is the sum of all amounts: every transaction is counted on exactly one side. |
| Metrics.PrependMetrics | App.tsx:62-81 | A new transaction at the front adds its amount to its own kind's total only, and adds one to the count. |
| Metrics.MetricsOrderIndependent | App.tsx:62-81 | Any two lists holding the same transactions, in any order, give identical metrics. |
| Metrics.TotalNonNegative | App.tsx:63-69 | Non-negative amounts give non-negative totals. |
| Metrics.MetricsBounds | App.tsx:71-72 | With non-negative amounts, revenue and expenses are non-negative and the margin is at most 100. |
| Metrics.MarginAtMostHundred | App.tsx:72 | With positive revenue and non-negative expenses, the margin formula is at most 100. |
| Metrics.EmptyMetrics | App.tsx:62-81 | No transactions give all-zero metrics. The margin is 0, not a division by zero. |
| LedgerEngine.SellStock | App.tsx:92-97 | The product list keeps its length. Only quantities change. Products with the sold id drop to max(0, stock − q). Every other product is unchanged. |
| LedgerEngine.AddTransaction | App.tsx:83-101 | The new transaction, with the fresh id, is placed first and the old list follows unchanged. Stock is taken exactly when the guard (sale, non-empty id, quantity a non-zero number) holds. Otherwise the products are untouched. |
| LedgerEngine.AddProduct | App.tsx:103-109 | The new product, with the fresh id, is placed first. The old products follow and the transactions are untouched. |
| LedgerEngine.EditProduct | App.tsx:111-113 | Products with the id become the draft under that id, and all others stay in place. An unknown id changes nothing, and the transactions are untouched. |
| LedgerEngine.DeleteProduct | App.tsx:115-117 | The result is an ordered sub-list that keeps exactly the products with other ids, each as often as before. An unknown id changes nothing. |
| LedgerEngine.DeleteTransaction | App.tsx:119-121 | The result is an ordered sub-list that keeps exactly the transactions with other ids, each as often as before. No stock is given back. |
| LedgerEngine.Apply | App.tsx:83-121 | Transaction commands keep the number of products. Product commands leave the transactions untouched. |
| LedgerEngine.SellStockKeepsIds | App.tsx:92-97 | A sale never changes any product id or the order of products, so unique ids stay unique. |
| LedgerEngine.ApplyPreservesWellFormed | App.tsx:83-121 | Each operation keeps ids unique in both lists and stock non-negative. This needs fresh ids, and drafts with non-negative quantity, which is what the product form submits. |
| LedgerEngine.AddThenDeleteTransaction | App.tsx:119-121 | Deleting a just-added transaction restores the transaction list. The whole ledger is restored unless the addition took stock. Stock taken by a sale stays taken. |
| LedgerEngine.AddThenDeleteProduct | App.tsx:115-117 | Deleting a just-added product restores the ledger exactly. |
| LedgerEngine.EditOverrides | App.tsx:111-113 | When the same product is edited twice, only the second edit counts. |
| LedgerEngine.EditThenFind | App.tsx:111-113 | After an edit, looking up the product's id finds the new draft under that id. |
| LedgerEngine.SaleWithinStock | App.tsx:91-97 | When a sale's quantity is within the stock, the stock drops by exactly that quantity (the floor never applies). Other products are unchanged. |
| ProductStore.Seeds | App.tsx:42-48 | Five sample products with unique ids, non-empty names and non-empty SKUs. Each has a cost price between 0 and its price, and non-negative stock. |
| ProductStore.LoadProducts | App.tsx:28-50 | The stored list is kept exactly when it is non-empty and its first record has a cost price. Otherwise the seeds are used. Either way the result passes that check. |
| ProductStore.LoadIdempotent | App.tsx:28-60 | Loading a list that was just loaded returns it unchanged. |
| ProductStore.EmptyStoreSeeds | App.tsx:37-49 | An empty stored list yields the five seeds, each with a cost price. |
| TransactionForm.Categories | constants.ts:11-14 | Each kind offers a non-empty category list ending in "Other". |
| TransactionForm.InitialForm | components/TransactionForm.tsx:16-22 | The form opens with the first category of its kind, no amount, quantity 1, no product, and the given date. |
| TransactionForm.AutoFill | components/TransactionForm.tsx:26-34 | A sale naming a product that exists gets amount price × quantity (a blank quantity counts as 0) and the product's name as description. Nothing else changes. Nothing at all changes when no product matches. |
| TransactionForm.Submit | components/TransactionForm.tsx:36-61 | The amount error is reported exactly when the amount is blank or not positive. The stock error is reported exactly when the amount is valid and a sale asks for more than the named product's stock, and it reports that stock. An accepted payload carries the form's fields, a positive amount, a supplier exactly for expenses, the selected id, and the parsed quantity. |
| TransactionForm.InitialFormRejected | components/TransactionForm.tsx:40-43 | A freshly opened form cannot be submitted. |
| TransactionForm.SubmittedSaleWithinStock | components/TransactionForm.tsx:45-51 | An accepted sale of a listed product asks for no more than that product's stock. |
| TransactionForm.AutoFilledSaleAccepted | components/TransactionForm.tsx:26-61 | Picking a product with a positive price and a quantity between 1 and its stock leads to an accepted sale. Its amount is price × quantity, its description is the product name, and it has no supplier. |
| ProductForm.Prefill | components/ProductForm.tsx:15-21 | A new product starts from a blank form. An edited product shows its own values, and a missing cost, description or supplier shows as blank. |
| ProductForm.Submit | components/ProductForm.tsx:24-51 | Missing fields are reported exactly when name, price, cost price, quantity or SKU is blank. A negative value is reported exactly when nothing is missing and a number is negative. An accepted draft has a name, a SKU, a cost price and no negative number. |
| ProductForm.PrefillSubmitRoundTrip | components/ProductForm.tsx:15-51 | Saving an unchanged edit of a valid product submits that product's own fields. A missing description or supplier becomes empty. |
| ProductForm.MissingCostBlocksSave | components/ProductForm.tsx:17-35 | A product stored without a cost price cannot be saved until a cost is entered. |
| ProductForm.BlankFormRejected | components/ProductForm.tsx:15-35 | A blank new-product form is rejected for missing fields. |
| Inventory.LowerIdempotent | components/InventoryList.tsx:22-23 | Lower-casing twice is the same as lower-casing once. |
| Inventory.IncludesIffOccurs | components/InventoryList.tsx:22-23 | `includes` holds exactly when the term occurs at some position of the text. |
| Inventory.SearchProducts | components/InventoryList.tsx:21-24 | The result is an ordered sub-list holding exactly the products whose lower-cased name or SKU contains the lower-cased term, each as often as listed. An empty term shows every product. |
| Inventory.SearchIgnoresCase | components/InventoryList.tsx:21-24 | Searching for a term and for its lower-cased form gives the same list. |
| Inventory.HandleFormSubmit | components/InventoryList.tsx:31-39 | While a product is being edited, a submission is an edit of that product's id. Otherwise it is an addition with a fresh id. Never both. |
| Inventory.MarginBandOf | components/InventoryList.tsx:102-109 | There is no band exactly when the cost is missing or 0. Otherwise the band is high above 30%, medium above 0%, and low at or below 0%. |
| Inventory.MarginBandByCost | components/InventoryList.tsx:104-105 | The same bands read off the cost: high when the cost is under 70% of the price, medium when it is under the price, low otherwise. |
| Inventory.StockBandOf | components/InventoryList.tsx:112-113 | The stock band is out of stock exactly at 0, low exactly for other values below 5, and in stock exactly from 5. |
| Reports.ProductMargin | components/Reports.tsx:19 | The margin is 0 when the price is not positive. Otherwise margin × price = (price − cost) × 100, with a missing cost counted as 0. |
| Reports.ProductMarginAtMostHundred | components/Reports.tsx:19 | With a positive price and a non-negative cost, the margin is at most 100. |
| Reports.ProductStats | components/Reports.tsx:16-21 | Every product is paired with its own margin, in list order. |
| Reports.ProfitableProducts | components/Reports.tsx:14-23 | The list has min(5, n) entries, sorted by margin from highest, each a listed product with its own margin. No product left out has a higher margin than the last entry. |
| Reports.LowStockProducts | components/Reports.tsx:25-27 | The list holds exactly the products with fewer than 5 units, each as often as listed, with the fewest units first. |
| Reports.PurchaseHistory | components/Reports.tsx:29-33 | The list is the first min(5, number of expenses) expenses, in their original order: entry i is the i-th expense. It is an ordered sub-list of the transactions, and it holds every expense when it has fewer than 5 entries. |
| Dashboard.ChartData | components/Dashboard.tsx:35-48 | There is one point per window date, in window order. Each point carries that day's sale total and expense total. |
| Dashboard.RecentTransactions | components/Dashboard.tsx:51 | The list shows the first min(5, n) transactions, in order. |
| Dashboard.DayPrepend | components/Dashboard.tsx:36-41 | A transaction adds its amount to its own date's sale or expense total and nowhere else. |
| Dashboard.QuietDay | components/Dashboard.tsx:36-41 | A date no transaction carries shows zero revenue and zero expenses. |
| Dashboard.OutsideWindow | components/Dashboard.tsx:27-49 | A transaction dated outside the window leaves the chart unchanged. |
| Dashboard.EmptyChart | components/Dashboard.tsx:27-49 | With no transactions, all chart bars add up to zero. |
| Dashboard.ChartPrepend | components/Dashboard.tsx:27-49 | Over distinct dates, a transaction adds its amount to the chart's total exactly when its date is in the window. |
| Dashboard.ChartAddsUpToTotals | components/Dashboard.tsx:27-49 | When every transaction is dated inside a window of distinct dates, the chart's bars add up to the headline revenue and expenses. |
| Flows.AcceptedSaleLeavesExactStock | components/TransactionForm.tsx:45-60 | With unique ids, a sale of a listed product with a non-negative quantity that the form accepts leaves exactly stock − quantity, which is not negative. Other products are unchanged. |
| Flows.NegativeSaleRestocks | components/TransactionForm.tsx:38-51 | With a positive amount, `handleSubmit` accepts a sale of a listed product for any negative quantity (only the input's `min="1"` stands in its way), and recording it (App.tsx:91-94) raises the product's stock by that many units. |
| Flows.DeletingEveryProductReseeds | App.tsx:115-117 | Deleting the only remaining product id leaves an empty list, and loading that list (App.tsx:37-49) gives back the five seeds. |
| Flows.EditUnchangedRoundTrip | components/InventoryList.tsx:31-39 | Editing a valid product and saving it unchanged rewrites only that product, filling a missing description or supplier with an empty string. A product that has both leaves the ledger exactly as it was. |
| Flows.NewestShownFirst | App.tsx:88 | A recorded transaction is the first one the dashboard lists. A recorded expense is also the first purchase in the reports. |
| Flows.RecordMovesMetrics | App.tsx:62-88 | Recording a transaction moves its kind's total by its amount, leaves the other total alone, and adds one to the count. |
| Flows.LowStockAgreesWithBands | components/Reports.tsx:26 | For every listed product, the reports' low-stock list agrees with the inventory's out-of-stock and low bands. |
| Flows.SaleOfTwoUnits | App.tsx:91-97 | A product with 10 units sold 2 at a time for 200 ends with 8, and revenue rises by 200. |

## Left out

- Browser storage and JSON.
  - Reading and writing `localStorage` (App.tsx:24-27, 31-35, 54-60) is not modelled.
  - `ProductStore.LoadProducts` takes the already-parsed list, with `None` for an absent or unparsable slot.
  - A stored `null`, a non-empty string, or a list whose first element is not an object makes App.tsx:37 throw. Other non-list values (a number, a boolean, a plain object) have no `length` and yield the seeds. Neither case is modelled.
  - Loading the transaction list, which has no error handling, is not modelled.
- Identifiers. `Math.random()` ids are fresh-id parameters. The operations require them to be unused, so a clash of random ids is not modelled.
- Numbers.
  - Amounts and prices are exact reals: no IEEE rounding, `NaN` or infinities.
  - Text in a numeric field that does not parse, and `parseInt` of a decimal, are not modelled.
  - A numeric field is either blank or a number. The one exception is the sale quantity passed to `addTransaction`, where `parseInt('')` is `NaN` and is modelled as `None`.
  - The browser's `min`/`step` input attributes are not modelled. In particular the sale quantity's `min="1"` (TransactionForm.tsx:110) is not, so the model admits sales of quantity below 1 that the browser refuses. Nor is the `disabled` product option for a product with 0 in stock (TransactionForm.tsx:100): the model's `selectedProductId` may name such a product, and the stock check then refuses any positive quantity.
- Inventory.MarginBandOf: requires a positive price when there is a non-zero cost. At price 0 with a non-zero cost the source divides by zero and shows a band for an infinite margin; that is not modelled.
- Inventory.LowerIdempotent: only the ASCII letters A–Z are lower-cased, not the full Unicode case mapping of `toLowerCase`.
- Reports.ProfitableProducts: states the order by margin but not the stability of `sort` among equal margins.
- Reports.LowStockProducts: states the order by quantity but not the stability of `sort` among equal quantities.
- Dashboard.ChartData: the window is a parameter. The source builds it from `new Date()` (the last seven ISO dates, oldest first) and shows locale weekday labels instead of dates.
- Form state and messages.
  - Which error text is shown is reduced to an error value.
  - Opening and closing the forms (`isFormOpen`, `editingProduct`) is not modelled.
- Other parts of the app are not modelled:
  - the AI insights (`services/geminiService.ts`, `components/Insights.tsx`), which are an external call;
  - the transaction tables (`components/TransactionList.tsx`);
  - the translations;
  - the colours and all rendering.

=== FILE: dashboard.dfy ===
/** The dashboard (components/Dashboard.tsx): revenue and expenses per day
    over a window of dates, and the latest transactions. The window, which
    the source builds from the current date (the last seven days, oldest
    first), is a parameter here; dates are compared as strings. */
module Dashboard {
  import opened Types
  import opened Seqs
  import opened Metrics

  /** One bar of the chart. The source shows the date as a weekday label;
      the model keeps the date itself. */
  datatype ChartPoint = ChartPoint(date: string, revenue: real, expenses: real)

  function SaleOn(date: string): Transaction -> bool {
    (t: Transaction) => t.date == date && t.kind == Sale
  }

  function ExpenseOn(date: string): Transaction -> bool {
    (t: Transaction) => t.date == date && t.kind == Expense
  }

  /** `daySales`: the SALE amounts dated exactly `date`, added up. */
  function DayRevenue(ts: seq<Transaction>, date: string): real {
    Sum(Filter(ts, SaleOn(date)))
  }

  /** `dayExpenses`: the EXPENSE amounts dated exactly `date`, added up. */
  function DayExpenses(ts: seq<Transaction>, date: string): real {
    Sum(Filter(ts, ExpenseOn(date)))
  }

  /** `chartData`: one point per date of the window, in window order. */
  function ChartData(ts: seq<Transaction>, window: seq<string>): (r: seq<ChartPoint>)
    ensures |r| == |window|
    ensures forall i :: 0 <= i < |window| ==>
      r[i] == ChartPoint(window[i], DayRevenue(ts, window[i]), DayExpenses(ts, window[i]))
  {
    if |window| == 0 then []
    else [ChartPoint(window[0], DayRevenue(ts, window[0]), DayExpenses(ts, window[0]))]
         + ChartData(ts, window[1..])
  }

  /** `transactions.slice(0, 5)`: the five newest, the list being newest first. */
  function RecentTransactions(ts: seq<Transaction>): (r: seq<Transaction>)
    ensures |r| == if |ts| < 5 then |ts| else 5
    ensures forall i :: 0 <= i < |r| ==> r[i] == ts[i]
  {
    Take(ts, 5)
  }

  /** A transaction in front adds its amount to its own date's sale or
      expense total and to nothing else. */
  lemma DayPrepend(t: Transaction, ts: seq<Transaction>, date: string)
    ensures DayRevenue([t] + ts, date) ==
      (if t.date == date && t.kind == Sale then t.amount else 0.0) + DayRevenue(ts, date)
    ensures DayExpenses([t] + ts, date) ==
      (if t.date == date && t.kind == Expense then t.amount else 0.0) + DayExpenses(ts, date)
  {
    assert ([t] + ts)[0] == t;
    assert ([t] + ts)[1..] == ts;
    var sales := Filter(ts, SaleOn(date));
    var costs := Filter(ts, ExpenseOn(date));
    assert ([t] + sales)[1..] == sales;
    assert ([t] + costs)[1..] == costs;
  }

  /** A date no transaction carries gets zero revenue and zero expenses. */
  lemma QuietDay(ts: seq<Transaction>, date: string)
    requires forall i :: 0 <= i < |ts| ==> ts[i].date != date
    ensures DayRevenue(ts, date) == 0.0 && DayExpenses(ts, date) == 0.0
  {
    FilterDropsAll(ts, SaleOn(date));
    FilterDropsAll(ts, ExpenseOn(date));
  }

  /** A transaction dated outside the window changes no point of the chart. */
  lemma OutsideWindow(t: Transaction, ts: seq<Transaction>, window: seq<string>)
    requires t.date !in window
    ensures ChartData([t] + ts, window) == ChartData(ts, window)
  {
    forall i | 0 <= i < |window|
      ensures ChartData([t] + ts, window)[i] == ChartData(ts, window)[i]
    {
      DayPrepend(t, ts, window[i]);
    }
  }

  predicate DistinctDates(window: seq<string>) {
    forall i, j :: 0 <= i < j < |window| ==> window[i] != window[j]
  }

  function ChartRevenue(points: seq<ChartPoint>): real {
    if |points| == 0 then 0.0 else points[0].revenue + ChartRevenue(points[1..])
  }

  function ChartExpenses(points: seq<ChartPoint>): real {
    if |points| == 0 then 0.0 else points[0].expenses + ChartExpenses(points[1..])
  }

  lemma {:induction false} EmptyChart(window: seq<string>)
    ensures ChartRevenue(ChartData([], window)) == 0.0
    ensures ChartExpenses(ChartData([], window)) == 0.0
  {
    if |window| > 0 {
      EmptyChart(window[1..]);
      var c := ChartData([], window);
      assert c[1..] == ChartData([], window[1..]);
    }
  }

  /** Over a window of distinct dates, a transaction in front adds its
      amount to the chart's totals exactly when its date is in the window. */
  lemma {:induction false} ChartPrepend(t: Transaction, ts: seq<Transaction>, window: seq<string>)
    requires DistinctDates(window)
    ensures ChartRevenue(ChartData([t] + ts, window)) ==
      (if t.date in window && t.kind == Sale then t.amount else 0.0) + ChartRevenue(ChartData(ts, window))
    ensures ChartExpenses(ChartData([t] + ts, window)) ==
      (if t.date in window && t.kind == Expense then t.amount else 0.0) + ChartExpenses(ChartData(ts, window))
  {
    if |window| > 0 {
      var rest := window[1..];
      assert DistinctDates(rest) by {
        forall i, j | 0 <= i < j < |rest| ensures rest[i] != rest[j] {
          assert rest[i] == window[i + 1] && rest[j] == window[j + 1];
        }
      }
      ChartPrepend(t, ts, rest);
      DayPrepend(t, ts, window[0]);
      var before := ChartData(ts, window);
      var after := ChartData([t] + ts, window);
      assert before[1..] == ChartData(ts, rest);
      assert after[1..] == ChartData([t] + ts, rest);
      assert t.date in window <==> t.date == window[0] || t.date in rest;
      assert t.date == window[0] ==> t.date !in rest;
    }
  }

  /** When every transaction is dated inside a window of distinct dates, the
      chart's bars add up to the total revenue and total expenses. */
  lemma {:induction false} ChartAddsUpToTotals(ts: seq<Transaction>, window: seq<string>)
    requires DistinctDates(window)
    requires forall i :: 0 <= i < |ts| ==> ts[i].date in window
    ensures ChartRevenue(ChartData(ts, window)) == Revenue(ts)
    ensures ChartExpenses(ChartData(ts, window)) == Expenses(ts)
  {
    if |ts| == 0 {
      EmptyChart(window);
      assert ts == [];
    } else {
      ChartAddsUpToTotals(ts[1..], window);
      ChartPrepend(ts[0], ts[1..], window);
      assert ts == [ts[0]] + ts[1..];
    }
  }
}

=== FILE: flows.dfy ===
/** What the views and the ledger do together: a form's submission carried
    through the App.tsx handler it is wired to, and what the other views then
    show. */
module Flows {
  import opened Types
  import opened Seqs
  import opened Metrics
  import opened LedgerEngine
  import TransactionForm
  import ProductForm
  import Inventory
  import Reports
  import Dashboard
  import ProductStore

  /** The ledger after the transaction form's payload reaches `addTransaction`. */
  function Record(l: Ledger, s: TransactionForm.Submission, freshId: string): (r: Ledger)
    requires s.Submitted? && TransactionIdUnused(l, freshId)
    ensures |r.transactions| == |l.transactions| + 1
    ensures r.transactions[0] == s.draft.WithId(freshId) && r.transactions[1..] == l.transactions
  {
    AddTransaction(l, s.draft, s.productId, s.quantity, freshId)
  }

  /** A sale of a listed product that the form accepts, for a non-negative
      quantity, leaves exactly the stock minus the quantity sold: the stock
      check in the form means the floor at 0 never applies. All other
      products are untouched. */
  lemma {:induction false} AcceptedSaleLeavesExactStock(l: Ledger, f: TransactionForm.FormState, i: int,
                                                        freshId: string)
    requires WellFormed(l) && TransactionIdUnused(l, freshId)
    requires 0 <= i < |l.products|
    requires f.kind == Sale && f.selectedProductId == l.products[i].id && f.selectedProductId != ""
    requires f.quantity.Typed? && f.quantity.value >= 0
    requires TransactionForm.Submit(f, l.products).Submitted?
    ensures var r := Record(l, TransactionForm.Submit(f, l.products), freshId);
      && r.products[i].quantity == l.products[i].quantity - f.quantity.value
      && r.products[i].quantity >= 0
      && forall j :: 0 <= j < |l.products| && j != i ==> r.products[j] == l.products[j]
  {
    var s := TransactionForm.Submit(f, l.products);
    FindDistinct(l.products, i);
    TransactionForm.SubmittedSaleWithinStock(f, l.products);
    SaleWithinStock(l, s.draft, i, f.quantity.value, freshId);
  }

  /** `handleSubmit` checks a sale's quantity only against the stock, from
      above; the lower bound is left to the quantity input's `min="1"`. A
      negative quantity that reaches it is accepted whenever the amount is
      valid, and recording the sale puts that many units back into stock. */
  lemma NegativeSaleRestocks(l: Ledger, f: TransactionForm.FormState, i: int, freshId: string)
    requires WellFormed(l) && TransactionIdUnused(l, freshId)
    requires 0 <= i < |l.products|
    requires f.kind == Sale && f.selectedProductId == l.products[i].id && f.selectedProductId != ""
    requires f.quantity.Typed? && f.quantity.value < 0
    requires TransactionForm.AmountValid(f)
    ensures TransactionForm.Submit(f, l.products).Submitted?
    ensures Record(l, TransactionForm.Submit(f, l.products), freshId).products[i].quantity
            == l.products[i].quantity + (-f.quantity.value)
    ensures Record(l, TransactionForm.Submit(f, l.products), freshId).products[i].quantity
            > l.products[i].quantity
  {
    FindDistinct(l.products, i);
  }

  /** Deleting every product saves an empty list, and the next start seeds
      the five sample products again. */
  lemma DeletingEveryProductReseeds(l: Ledger, id: string)
    requires forall i :: 0 <= i < |l.products| ==> l.products[i].id == id
    ensures DeleteProduct(l, id).products == []
    ensures ProductStore.LoadProducts(Some(DeleteProduct(l, id).products)) == ProductStore.Seeds()
  {
    FilterDropsAll(l.products, ProductIdIsNot(id));
  }

  /** Opening a product for editing and saving it unchanged rewrites only
      that product, and only a missing description or supplier (which become
      empty strings); a product that has both comes back as it was. */
  lemma {:induction false} EditUnchangedRoundTrip(l: Ledger, i: int, freshId: string)
    requires WellFormed(l) && 0 <= i < |l.products|
    requires var p := l.products[i];
      && p.name != "" && p.sku != "" && p.price >= 0.0
      && p.costPrice.Some? && p.costPrice.value >= 0.0
    ensures var p := l.products[i];
      var s := ProductForm.Submit(ProductForm.Prefill(Some(p)));
      && s.Submitted?
      && var r := Apply(l, Inventory.HandleFormSubmit(Some(p), s.draft, freshId));
      && r.transactions == l.transactions
      && |r.products| == |l.products|
      && r.products[i] == p.(description := Some(p.description.GetOr("")),
                            supplier := Some(p.supplier.GetOr("")))
      && (forall j :: 0 <= j < |l.products| && j != i ==> r.products[j] == l.products[j])
      && (p.description.Some? && p.supplier.Some? ==> r == l)
  {
    var p := l.products[i];
    ProductForm.PrefillSubmitRoundTrip(p);
    var d := ProductForm.UnchangedDraft(p);
    var r := EditProduct(l, p.id, d);
    assert d.WithId(p.id) == p.(description := Some(p.description.GetOr("")),
                                supplier := Some(p.supplier.GetOr("")));
    forall j | 0 <= j < |l.products| && j != i ensures r.products[j] == l.products[j] {
      assert l.products[j].id != p.id;
    }
    if p.description.Some? && p.supplier.Some? {
      assert r.products == l.products;
    }
  }

  /** A recorded transaction is the first one the dashboard lists, and a
      recorded expense is also the first purchase in the reports. */
  lemma {:induction false} NewestShownFirst(l: Ledger, d: TransactionDraft, productId: string,
                                            quantity: Option<int>, freshId: string)
    requires TransactionIdUnused(l, freshId)
    ensures Dashboard.RecentTransactions(AddTransaction(l, d, productId, quantity, freshId).transactions)[0]
            == d.WithId(freshId)
    ensures d.kind == Expense ==>
      Reports.PurchaseHistory(AddTransaction(l, d, productId, quantity, freshId).transactions)[0]
      == d.WithId(freshId)
  {
    var ts := AddTransaction(l, d, productId, quantity, freshId).transactions;
    var t := d.WithId(freshId);
    if d.kind == Expense {
      assert ts == [t] + ts[1..];
      assert ts[1..] == ([t] + ts[1..])[1..];
      assert Filter(ts, IsExpense) == [t] + Filter(ts[1..], IsExpense);
    }
  }

  /** Recording a transaction moves the headline metrics by its amount, on
      the side of its kind, and counts it once. */
  lemma {:induction false} RecordMovesMetrics(l: Ledger, d: TransactionDraft, productId: string,
                                              quantity: Option<int>, freshId: string)
    requires TransactionIdUnused(l, freshId)
    ensures var before := ComputeMetrics(l.transactions);
      var after := ComputeMetrics(AddTransaction(l, d, productId, quantity, freshId).transactions);
      && after.totalRevenue == before.totalRevenue + (if d.kind == Sale then d.amount else 0.0)
      && after.totalExpenses == before.totalExpenses + (if d.kind == Expense then d.amount else 0.0)
      && after.transactionCount == before.transactionCount + 1
  {
    var ts := AddTransaction(l, d, productId, quantity, freshId).transactions;
    assert ts == [d.WithId(freshId)] + l.transactions;
    PrependMetrics(d.WithId(freshId), l.transactions);
  }

  /** The reports' low-stock list holds exactly the listed products the
      inventory marks out of stock or low. */
  lemma LowStockAgreesWithBands(ps: seq<Product>, p: Product)
    requires p in ps
    ensures p in Reports.LowStockProducts(ps) <==> Inventory.StockBandOf(p.quantity) != Inventory.InStock
  {
  }

  /** A worked case: with product p1 (price 100, cost 40, 10 in stock), a
      sale of 2 units for 200 leaves 8 in stock and adds 200 to revenue. */
  lemma SaleOfTwoUnits(freshId: string)
    ensures var p1 := Product("p1", "P1", 100.0, Some(40.0), 10, "P-1", None, None);
      var l := Ledger([], [p1]);
      var d := TransactionDraft(Sale, 200.0, "Product", "P1", "2024-01-01", None);
      var r := AddTransaction(l, d, "p1", Some(2), freshId);
      && r.products[0].quantity == 8
      && ComputeMetrics(r.transactions).totalRevenue == ComputeMetrics(l.transactions).totalRevenue + 200.0
  {
    var p1 := Product("p1", "P1", 100.0, Some(40.0), 10, "P-1", None, None);
    var l := Ledger([], [p1]);
    var d := TransactionDraft(Sale, 200.0, "Product", "P1", "2024-01-01", None);
    RecordMovesMetrics(l, d, "p1", Some(2), freshId);
  }
}

=== FILE: inventory.dfy ===
/** The inventory view (components/InventoryList.tsx): the search filter,
    the add-or-edit dispatch of the product form, and the colour bands of
    the margin and stock columns. */
module Inventory {
  import opened Types
  import opened Seqs
  import opened LedgerEngine

  /** Lower-casing of one character; only the ASCII letters A-Z change. */
  function LowerChar(c: char): char {
    if 'A' <= c <= 'Z' then (c as int + 32) as char else c
  }

  /** `toLowerCase()`. */
  function Lower(s: string): (r: string)
    ensures |r| == |s|
    ensures forall i :: 0 <= i < |s| ==> r[i] == LowerChar(s[i])
  {
    seq(|s|, i requires 0 <= i < |s| => LowerChar(s[i]))
  }

  lemma LowerIdempotent(s: string)
    ensures Lower(Lower(s)) == Lower(s)
  {
  }

  /** `s.includes(t)`: `t` is a prefix of `s` or of one of its suffixes. */
  function Includes(s: string, t: string): bool
    decreases |s|
  {
    t <= s || (|s| > 0 && Includes(s[1..], t))
  }

  /** `Includes` holds exactly when `t` occurs in `s` at some position. */
  lemma {:induction false} IncludesIffOccurs(s: string, t: string)
    ensures Includes(s, t) <==> exists k :: 0 <= k <= |s| && t <= s[k..]
    decreases |s|
  {
    assert s[0..] == s;
    if |s| > 0 {
      IncludesIffOccurs(s[1..], t);
      if Includes(s[1..], t) {
        var k :| 0 <= k <= |s[1..]| && t <= s[1..][k..];
        assert s[1..][k..] == s[k + 1..];
      }
      if exists k :: 0 <= k <= |s| && t <= s[k..] {
        var k :| 0 <= k <= |s| && t <= s[k..];
        if k > 0 {
          assert s[1..][k - 1..] == s[k..];
        }
      }
    } else {
      assert forall k :: 0 <= k <= |s| ==> s[k..] == s;
    }
  }

  /** The search predicate on an already lower-cased term. */
  function MatchesTerm(needle: string): Product -> bool {
    (p: Product) => Includes(Lower(p.name), needle) || Includes(Lower(p.sku), needle)
  }

  /** `filteredProducts`: the products whose lower-cased name or SKU
      contains the lower-cased term, each as often as listed, in their
      original order. */
  function SearchProducts(ps: seq<Product>, term: string): (r: seq<Product>)
    ensures SubsequenceOf(r, ps)
    ensures forall p :: p in r <==>
      p in ps && (Includes(Lower(p.name), Lower(term)) || Includes(Lower(p.sku), Lower(term)))
    ensures forall p: Product {:trigger multiset(r)[p]} ::
      multiset(r)[p] ==
        if Includes(Lower(p.name), Lower(term)) || Includes(Lower(p.sku), Lower(term)) then multiset(ps)[p] else 0
    ensures term == "" ==> r == ps
  {
    if term == "" then
      assert forall i :: 0 <= i < |ps| ==> MatchesTerm(Lower(term))(ps[i]);
      FilterKeepsAll(ps, MatchesTerm(Lower(term)));
      Filter(ps, MatchesTerm(Lower(term)))
    else
      Filter(ps, MatchesTerm(Lower(term)))
  }

  /** Searching is insensitive to the case of the term. */
  lemma SearchIgnoresCase(ps: seq<Product>, term: string)
    ensures SearchProducts(ps, term) == SearchProducts(ps, Lower(term))
  {
    LowerIdempotent(term);
  }

  /** `handleFormSubmit`: while a product is being edited the form edits it
      under its id; otherwise it adds a new product. Never both. */
  function HandleFormSubmit(editing: Option<Product>, d: ProductDraft, freshId: string): (c: Command)
    ensures editing.Some? <==> c.EditProductCmd?
    ensures editing.None? <==> c.AddProductCmd?
    ensures c.EditProductCmd? ==> c.editedId == editing.value.id && c.editedDraft == d
    ensures c.AddProductCmd? ==> c.productDraft == d && c.newProductId == freshId
  {
    match editing
    case Some(p) => EditProductCmd(p.id, d)
    case None => AddProductCmd(d, freshId)
  }

  datatype MarginBand = HighMargin | MediumMargin | LowMargin

  /** `(price - costPrice) / price * 100`. */
  function MarginPercent(price: real, cost: real): real
    requires price > 0.0
  {
    (price - cost) / price * 100.0
  }

  /** The margin column: no band (`-`) when the cost price is missing or 0;
      otherwise high above 30 percent, medium above 0, low at or below 0.
      The margin is computed only when there is a cost, so a price of 0 is
      allowed exactly when no band is shown. */
  function MarginBandOf(p: Product): (b: Option<MarginBand>)
    requires p.price > 0.0 || p.costPrice.GetOr(0.0) == 0.0
    ensures b.None? <==> p.costPrice.GetOr(0.0) == 0.0
    ensures b == Some(HighMargin) <==>
      p.costPrice.GetOr(0.0) != 0.0 && MarginPercent(p.price, p.costPrice.value) > 30.0
    ensures b == Some(MediumMargin) <==>
      p.costPrice.GetOr(0.0) != 0.0 && 0.0 < MarginPercent(p.price, p.costPrice.value) <= 30.0
    ensures b == Some(LowMargin) <==>
      p.costPrice.GetOr(0.0) != 0.0 && MarginPercent(p.price, p.costPrice.value) <= 0.0
  {
    if p.costPrice.GetOr(0.0) == 0.0 then None
    else
      var m := MarginPercent(p.price, p.costPrice.value);
      if m > 30.0 then Some(HighMargin)
      else if m > 0.0 then Some(MediumMargin)
      else Some(LowMargin)
  }

  /** The margin bands read off the cost directly: high when the cost is
      under 70 percent of the price, medium when it is under the price, low
      when it is at least the price. */
  lemma MarginBandByCost(p: Product)
    requires p.price > 0.0 && p.costPrice.Some? && p.costPrice.value != 0.0
    ensures MarginBandOf(p) == Some(HighMargin) <==> p.costPrice.value < 0.7 * p.price
    ensures MarginBandOf(p) == Some(MediumMargin) <==> 0.7 * p.price <= p.costPrice.value < p.price
    ensures MarginBandOf(p) == Some(LowMargin) <==> p.price <= p.costPrice.value
  {
    var c := p.costPrice.value;
    var m := MarginPercent(p.price, c);
    MarginTimesPrice(p.price, c);
    AboveThreshold(m, p.price, c, 30.0);
    AboveThreshold(m, p.price, c, 0.0);
  }

  /** Clearing the division: the margin times the price is the profit per
      unit times 100. */
  lemma MarginTimesPrice(price: real, cost: real)
    requires price > 0.0
    ensures MarginPercent(price, cost) * price == (price - cost) * 100.0
  {
    var q := (price - cost) / price;
    assert q * price == price - cost;
    assert MarginPercent(price, cost) * price == 100.0 * (q * price);
  }

  /** With `m * price == (price - cost) * 100` and a positive price, the
      margin exceeds a threshold `t` exactly when the cost is below
      `(100 - t) / 100` of the price. */
  lemma AboveThreshold(m: real, price: real, cost: real, t: real)
    requires price > 0.0
    requires m * price == (price - cost) * 100.0
    ensures m > t <==> 100.0 * cost < (100.0 - t) * price
  {
    Distribute(m, t, price);
    PositiveFactor(m - t, price);
  }

  lemma Distribute(a: real, b: real, c: real)
    ensures (a - b) * c == a * c - b * c
  {
  }

  /** For a positive `y`, `x * y` has the sign of `x`. */
  lemma PositiveFactor(x: real, y: real)
    requires y > 0.0
    ensures x > 0.0 <==> x * y > 0.0
  {
    if x > 0.0 {
      assert x * y > 0.0;
    } else {
      assert x * y <= 0.0;
    }
  }

  datatype StockBand = OutOfStock | LowStock | InStock

  /** The stock column: out of stock at 0, low below 5, in stock from 5. */
  function StockBandOf(quantity: int): (b: StockBand)
    ensures b == OutOfStock <==> quantity == 0
    ensures b == LowStock <==> quantity != 0 && quantity < 5
    ensures b == InStock <==> quantity >= 5
  {
    if quantity == 0 then OutOfStock else if quantity < 5 then LowStock else InStock
  }
}

=== FILE: ledger.dfy ===
/** The ledger state machine of App.tsx: two lists, transactions and
    products, and the five operations that replace them. Each operation
    returns the next state. Identifiers, which the source draws at random,
    are passed in and required to be unused. */
module LedgerEngine {
  import opened Types
  import opened Seqs

  datatype Ledger = Ledger(transactions: seq<Transaction>, products: seq<Product>)

  function Max(a: int, b: int): int {
    if a >= b then a else b
  }

  /** The state invariant: identifiers are unique in each list and no
      product has negative stock. */
  predicate WellFormed(l: Ledger) {
    && DistinctTransactionIds(l.transactions)
    && DistinctProductIds(l.products)
    && forall i :: 0 <= i < |l.products| ==> l.products[i].quantity >= 0
  }

  predicate TransactionIdUnused(l: Ledger, id: string) {
    forall i :: 0 <= i < |l.transactions| ==> l.transactions[i].id != id
  }

  predicate ProductIdUnused(l: Ledger, id: string) {
    forall i :: 0 <= i < |l.products| ==> l.products[i].id != id
  }

  /** The guard `type === SALE && productId && quantity`: JavaScript
      truthiness rejects the empty id, a missing or unparsable quantity
      (`None`) and the quantity 0. */
  predicate DecrementsStock(d: TransactionDraft, productId: string, quantity: Option<int>) {
    d.kind == Sale && productId != "" && quantity.Some? && quantity.value != 0
  }

  /** The `prev.map(...)` of a sale: every product with the sold id loses `q`
      units, floored at 0; nothing else about any product changes. */
  function SellStock(ps: seq<Product>, productId: string, q: int): (r: seq<Product>)
    ensures |r| == |ps|
    ensures forall i :: 0 <= i < |ps| ==> r[i] == ps[i].(quantity := r[i].quantity)
    ensures forall i :: 0 <= i < |ps| && ps[i].id == productId ==>
      r[i].quantity == Max(0, ps[i].quantity - q)
    ensures forall i :: 0 <= i < |ps| && ps[i].id != productId ==> r[i] == ps[i]
  {
    seq(|ps|, i requires 0 <= i < |ps| =>
      if ps[i].id == productId then ps[i].(quantity := Max(0, ps[i].quantity - q)) else ps[i])
  }

  /** `addTransaction(draft, productId, quantity)`: the new transaction goes
      in front of the list; a sale that passes the guard also takes stock. */
  function AddTransaction(l: Ledger, d: TransactionDraft, productId: string, quantity: Option<int>,
                          freshId: string): (r: Ledger)
    requires TransactionIdUnused(l, freshId)
    ensures |r.transactions| == |l.transactions| + 1
    ensures r.transactions[0] == d.WithId(freshId)
    ensures r.transactions[1..] == l.transactions
    ensures DecrementsStock(d, productId, quantity) ==>
      r.products == SellStock(l.products, productId, quantity.value)
    ensures !DecrementsStock(d, productId, quantity) ==> r.products == l.products
  {
    var products :=
      if DecrementsStock(d, productId, quantity) then SellStock(l.products, productId, quantity.value)
      else l.products;
    Ledger([d.WithId(freshId)] + l.transactions, products)
  }

  /** `addProduct(draft)`: the new product goes in front of the list. */
  function AddProduct(l: Ledger, d: ProductDraft, freshId: string): (r: Ledger)
    requires ProductIdUnused(l, freshId)
    ensures |r.products| == |l.products| + 1
    ensures r.products[0] == d.WithId(freshId)
    ensures r.products[1..] == l.products
    ensures r.transactions == l.transactions
  {
    Ledger(l.transactions, [d.WithId(freshId)] + l.products)
  }

  /** `editProduct(id, draft)`: every product with that id becomes the draft
      under the same id; the others, and the list's length, stay as they were. */
  function EditProduct(l: Ledger, id: string, d: ProductDraft): (r: Ledger)
    ensures |r.products| == |l.products|
    ensures forall i :: 0 <= i < |l.products| && l.products[i].id == id ==> r.products[i] == d.WithId(id)
    ensures forall i :: 0 <= i < |l.products| && l.products[i].id != id ==> r.products[i] == l.products[i]
    ensures ProductIdUnused(l, id) ==> r == l
    ensures r.transactions == l.transactions
  {
    var products := seq(|l.products|, i requires 0 <= i < |l.products| =>
      if l.products[i].id == id then d.WithId(id) else l.products[i]);
    Ledger(l.transactions, products)
  }

  function ProductIdIsNot(id: string): Product -> bool {
    (p: Product) => p.id != id
  }

  function TransactionIdIsNot(id: string): Transaction -> bool {
    (t: Transaction) => t.id != id
  }

  /** `deleteProduct(id)`: removes exactly the products with that id and
      keeps the others, in order and as often as they occurred. */
  function DeleteProduct(l: Ledger, id: string): (r: Ledger)
    ensures SubsequenceOf(r.products, l.products)
    ensures forall p :: p in r.products <==> p in l.products && p.id != id
    ensures forall p: Product :: p.id != id ==> multiset(r.products)[p] == multiset(l.products)[p]
    ensures ProductIdUnused(l, id) ==> r == l
    ensures r.transactions == l.transactions
  {
    var products := Filter(l.products, ProductIdIsNot(id));
    if ProductIdUnused(l, id) then
      FilterKeepsAll(l.products, ProductIdIsNot(id));
      Ledger(l.transactions, products)
    else
      Ledger(l.transactions, products)
  }

  /** `deleteTransaction(id)`: removes exactly the transactions with that id.
      It gives back no stock: the product list is untouched. */
  function DeleteTransaction(l: Ledger, id: string): (r: Ledger)
    ensures SubsequenceOf(r.transactions, l.transactions)
    ensures forall t :: t in r.transactions <==> t in l.transactions && t.id != id
    ensures forall t: Transaction :: t.id != id ==> multiset(r.transactions)[t] == multiset(l.transactions)[t]
    ensures TransactionIdUnused(l, id) ==> r == l
    ensures r.products == l.products
  {
    var transactions := Filter(l.transactions, TransactionIdIsNot(id));
    if TransactionIdUnused(l, id) then
      FilterKeepsAll(l.transactions, TransactionIdIsNot(id));
      Ledger(transactions, l.products)
    else
      Ledger(transactions, l.products)
  }

  /** The commands the views issue against the ledger. */
  datatype Command =
    | AddTransactionCmd(draft: TransactionDraft, soldProductId: string, soldQuantity: Option<int>,
                        newTransactionId: string)
    | AddProductCmd(productDraft: ProductDraft, newProductId: string)
    | EditProductCmd(editedId: string, editedDraft: ProductDraft)
    | DeleteProductCmd(deletedProductId: string)
    | DeleteTransactionCmd(deletedTransactionId: string)

  /** A command may be issued: the identifier an add uses is unused. */
  predicate Admissible(l: Ledger, c: Command) {
    match c
    case AddTransactionCmd(_, _, _, freshId) => TransactionIdUnused(l, freshId)
    case AddProductCmd(_, newId) => ProductIdUnused(l, newId)
    case _ => true
  }

  /** A command keeps stock non-negative: the product forms only produce
      drafts with non-negative quantity. */
  predicate KeepsStockNonNegative(c: Command) {
    match c
    case AddProductCmd(d, _) => d.quantity >= 0
    case EditProductCmd(_, d) => d.quantity >= 0
    case _ => true
  }

  function Apply(l: Ledger, c: Command): (r: Ledger)
    requires Admissible(l, c)
    ensures c.DeleteTransactionCmd? || c.AddTransactionCmd? ==> |r.products| == |l.products|
    ensures !c.AddTransactionCmd? && !c.DeleteTransactionCmd? ==> r.transactions == l.transactions
  {
    match c
    case AddTransactionCmd(d, pid, q, freshId) => AddTransaction(l, d, pid, q, freshId)
    case AddProductCmd(d, newId) => AddProduct(l, d, newId)
    case EditProductCmd(id, d) => EditProduct(l, id, d)
    case DeleteProductCmd(id) => DeleteProduct(l, id)
    case DeleteTransactionCmd(id) => DeleteTransaction(l, id)
  }

  /** Selling never changes which ids are listed, nor their order. */
  lemma SellStockKeepsIds(ps: seq<Product>, productId: string, q: int)
    ensures forall i :: 0 <= i < |ps| ==> SellStock(ps, productId, q)[i].id == ps[i].id
    ensures DistinctProductIds(ps) ==> DistinctProductIds(SellStock(ps, productId, q))
  {
  }

  /** Every command keeps the ledger well formed, given unused fresh ids and
      non-negative drafted stock. */
  lemma ApplyPreservesWellFormed(l: Ledger, c: Command)
    requires WellFormed(l)
    requires Admissible(l, c)
    requires KeepsStockNonNegative(c)
    ensures WellFormed(Apply(l, c))
  {
    var r := Apply(l, c);
    match c
    case AddTransactionCmd(d, pid, q, freshId) =>
      SellStockKeepsIds(l.products, pid, q.GetOr(0));
      assert DistinctTransactionIds(r.transactions) by {
        forall i, j | 0 <= i < j < |r.transactions|
          ensures r.transactions[i].id != r.transactions[j].id
        {
          assert r.transactions[j] == l.transactions[j - 1];
          if i > 0 {
            assert r.transactions[i] == l.transactions[i - 1];
          }
        }
      }
    case AddProductCmd(d, newId) =>
      assert DistinctProductIds(r.products) by {
        forall i, j | 0 <= i < j < |r.products|
          ensures r.products[i].id != r.products[j].id
        {
          assert r.products[j] == l.products[j - 1];
          if i > 0 {
            assert r.products[i] == l.products[i - 1];
          }
        }
      }
      assert forall i :: 1 <= i < |r.products| ==> r.products[i] == l.products[i - 1];
    case EditProductCmd(id, d) =>
    case DeleteProductCmd(id) =>
      FilterPairwise(l.products, ProductIdIsNot(id), DifferentProductIds);
      assert Pairwise(l.products, DifferentProductIds);
      forall i | 0 <= i < |r.products| ensures r.products[i].quantity >= 0 {
        assert r.products[i] in l.products;
      }
    case DeleteTransactionCmd(id) =>
      FilterPairwise(l.transactions, TransactionIdIsNot(id), DifferentTransactionIds);
      assert Pairwise(l.transactions, DifferentTransactionIds);
  }

  predicate DifferentProductIds(a: Product, b: Product) {
    a.id != b.id
  }

  predicate DifferentTransactionIds(a: Transaction, b: Transaction) {
    a.id != b.id
  }

  /** Deleting a transaction right after adding it restores the transaction
      list. Unless the addition took stock, the whole ledger is restored;
      a sale's stock is never given back. */
  lemma AddThenDeleteTransaction(l: Ledger, d: TransactionDraft, productId: string, quantity: Option<int>,
                                 freshId: string)
    requires TransactionIdUnused(l, freshId)
    ensures DeleteTransaction(AddTransaction(l, d, productId, quantity, freshId), freshId).transactions
            == l.transactions
    ensures !DecrementsStock(d, productId, quantity) ==>
      DeleteTransaction(AddTransaction(l, d, productId, quantity, freshId), freshId) == l
    ensures DeleteTransaction(AddTransaction(l, d, productId, quantity, freshId), freshId).products
            == AddTransaction(l, d, productId, quantity, freshId).products
  {
    var a := AddTransaction(l, d, productId, quantity, freshId);
    assert a.transactions == [d.WithId(freshId)] + l.transactions;
    FilterKeepsAll(l.transactions, TransactionIdIsNot(freshId));
    assert a.transactions[1..] == l.transactions;
  }

  /** Deleting a product right after adding it restores the ledger. */
  lemma AddThenDeleteProduct(l: Ledger, d: ProductDraft, freshId: string)
    requires ProductIdUnused(l, freshId)
    ensures DeleteProduct(AddProduct(l, d, freshId), freshId) == l
  {
    var a := AddProduct(l, d, freshId);
    assert a.products == [d.WithId(freshId)] + l.products;
    FilterKeepsAll(l.products, ProductIdIsNot(freshId));
    assert a.products[1..] == l.products;
  }

  /** A second edit of the same product overrides the first. */
  lemma EditOverrides(l: Ledger, id: string, d1: ProductDraft, d2: ProductDraft)
    ensures EditProduct(EditProduct(l, id, d1), id, d2) == EditProduct(l, id, d2)
  {
  }

  /** After an edit, looking the product up finds the draft under its id. */
  lemma EditThenFind(l: Ledger, i: int, d: ProductDraft)
    requires DistinctProductIds(l.products)
    requires 0 <= i < |l.products|
    ensures FindProduct(EditProduct(l, l.products[i].id, d).products, l.products[i].id)
            == Some(d.WithId(l.products[i].id))
  {
    var id := l.products[i].id;
    var r := EditProduct(l, id, d);
    assert DistinctProductIds(r.products);
    FindDistinct(r.products, i);
  }

  /** With unique ids, a sale of `q` units of an in-stock product whose stock
      covers `q` leaves exactly `stock - q`: the floor at 0 never bites. */
  lemma SaleWithinStock(l: Ledger, d: TransactionDraft, i: int, q: int, freshId: string)
    requires DistinctProductIds(l.products)
    requires TransactionIdUnused(l, freshId)
    requires 0 <= i < |l.products|
    requires d.kind == Sale && l.products[i].id != ""
    requires 0 <= q <= l.products[i].quantity
    ensures AddTransaction(l, d, l.products[i].id, Some(q), freshId).products[i].quantity
            == l.products[i].quantity - q
    ensures forall j :: 0 <= j < |l.products| && j != i ==>
      AddTransaction(l, d, l.products[i].id, Some(q), freshId).products[j] == l.products[j]
  {
  }
}

=== FILE: metrics.dfy ===
/** The metrics derivation of App.tsx: revenue, expenses, net profit,
    margin and count, recomputed from the whole transaction list. */
module Metrics {
  import opened Types
  import opened Seqs

  predicate IsSale(t: Transaction) {
    t.kind == Sale
  }

  predicate IsExpense(t: Transaction) {
    t.kind == Expense
  }

  /** `reduce((sum, t) => sum + t.amount, 0)`. */
  function Sum(ts: seq<Transaction>): real {
    if |ts| == 0 then 0.0 else ts[0].amount + Sum(ts[1..])
  }

  /** Reference definition: the amounts of the transactions of one kind,
      added up in a single pass. */
  function Total(ts: seq<Transaction>, kind: TransactionType): real {
    if |ts| == 0 then 0.0
    else (if ts[0].kind == kind then ts[0].amount else 0.0) + Total(ts[1..], kind)
  }

  /** Sum of the amounts of the SALE transactions. */
  function Revenue(ts: seq<Transaction>): real {
    Total(ts, Sale)
  }

  /** Sum of the amounts of the EXPENSE transactions. */
  function Expenses(ts: seq<Transaction>): real {
    Total(ts, Expense)
  }

  /** The source's filter-then-reduce computes the per-kind totals. */
  lemma {:induction false} FilterSumIsTotal(ts: seq<Transaction>)
    ensures Sum(Filter(ts, IsSale)) == Revenue(ts)
    ensures Sum(Filter(ts, IsExpense)) == Expenses(ts)
  {
    if |ts| > 0 {
      FilterSumIsTotal(ts[1..]);
      var t := ts[0];
      assert ([t] + Filter(ts[1..], IsSale))[1..] == Filter(ts[1..], IsSale);
      assert ([t] + Filter(ts[1..], IsExpense))[1..] == Filter(ts[1..], IsExpense);
    }
  }

  /** The `metrics` memo. The margin is a percentage of revenue and is 0
      whenever revenue is not positive, so it never divides by zero. */
  function ComputeMetrics(ts: seq<Transaction>): (m: BusinessMetrics)
    ensures m.totalRevenue == Revenue(ts)
    ensures m.totalExpenses == Expenses(ts)
    ensures m.netProfit == m.totalRevenue - m.totalExpenses
    ensures m.transactionCount == |ts|
    ensures m.totalRevenue > 0.0 ==> m.profitMargin == m.netProfit / m.totalRevenue * 100.0
    ensures m.totalRevenue <= 0.0 ==> m.profitMargin == 0.0
  {
    FilterSumIsTotal(ts);
    var totalRevenue := Sum(Filter(ts, IsSale));
    var totalExpenses := Sum(Filter(ts, IsExpense));
    var netProfit := totalRevenue - totalExpenses;
    var profitMargin := if totalRevenue > 0.0 then (netProfit / totalRevenue) * 100.0 else 0.0;
    BusinessMetrics(totalRevenue, totalExpenses, netProfit, profitMargin, |ts|)
  }

  lemma {:induction false} TotalConcat(a: seq<Transaction>, b: seq<Transaction>, kind: TransactionType)
    ensures Total(a + b, kind) == Total(a, kind) + Total(b, kind)
  {
    if |a| == 0 {
      assert a + b == b;
    } else {
      assert (a + b)[0] == a[0];
      assert (a + b)[1..] == a[1..] + b;
      TotalConcat(a[1..], b, kind);
    }
  }

  /** Revenue and expenses are additive over a split of the list. */
  lemma RevenueConcat(a: seq<Transaction>, b: seq<Transaction>)
    ensures Revenue(a + b) == Revenue(a) + Revenue(b)
    ensures Expenses(a + b) == Expenses(a) + Expenses(b)
  {
    TotalConcat(a, b, Sale);
    TotalConcat(a, b, Expense);
  }

  /** Every transaction is either a sale or an expense, so revenue and
      expenses together account for every amount exactly once. */
  lemma {:induction false} RevenuePlusExpenses(ts: seq<Transaction>)
    ensures Revenue(ts) + Expenses(ts) == Sum(ts)
  {
    if |ts| > 0 {
      RevenuePlusExpenses(ts[1..]);
    }
  }

  /** Prepending a transaction moves exactly one of the totals by its amount. */
  lemma PrependMetrics(t: Transaction, ts: seq<Transaction>)
    ensures Revenue([t] + ts) == (if t.kind == Sale then t.amount else 0.0) + Revenue(ts)
    ensures Expenses([t] + ts) == (if t.kind == Expense then t.amount else 0.0) + Expenses(ts)
    ensures ComputeMetrics([t] + ts).transactionCount == ComputeMetrics(ts).transactionCount + 1
  {
    assert ([t] + ts)[0] == t;
    assert ([t] + ts)[1..] == ts;
  }

  /** The metrics do not depend on the order of the transactions: any
      rearrangement of the list yields the same metrics. */
  lemma {:induction false} MetricsOrderIndependent(a: seq<Transaction>, b: seq<Transaction>)
    requires multiset(a) == multiset(b)
    ensures ComputeMetrics(a) == ComputeMetrics(b)
  {
    assert |a| == |multiset(a)| == |multiset(b)| == |b|;
    RevenueExpensesPermutation(a, b);
  }

  lemma {:induction false} RevenueExpensesPermutation(a: seq<Transaction>, b: seq<Transaction>)
    requires multiset(a) == multiset(b)
    ensures Revenue(a) == Revenue(b) && Expenses(a) == Expenses(b)
    decreases |a|
  {
    if |a| == 0 {
      assert |b| == |multiset(b)| == 0;
    } else {
      var x := a[0];
      assert x in b by {
        assert x in multiset(b);
      }
      var j :| 0 <= j < |b| && b[j] == x;
      var rest := b[..j] + b[j + 1..];
      RemoveAt(b, j);
      assert multiset(a[1..]) == multiset(rest) by {
        assert a == [x] + a[1..];
        assert multiset(a) == multiset{x} + multiset(a[1..]);
      }
      RevenueExpensesPermutation(a[1..], rest);
      RevenueConcat([x], a[1..]);
      assert a == [x] + a[1..];
    }
  }

  /** Taking one transaction out of the list and putting it in front
      changes neither total, and keeps the same elements. */
  lemma RemoveAt(b: seq<Transaction>, j: int)
    requires 0 <= j < |b|
    ensures multiset(b[..j] + b[j + 1..]) == multiset(b) - multiset{b[j]}
    ensures Revenue(b) == Revenue([b[j]]) + Revenue(b[..j] + b[j + 1..])
    ensures Expenses(b) == Expenses([b[j]]) + Expenses(b[..j] + b[j + 1..])
  {
    var x := b[j];
    assert b == b[..j] + [x] + b[j + 1..];
    assert multiset(b) == multiset(b[..j]) + multiset{x} + multiset(b[j + 1..]);
    RevenueConcat(b[..j] + [x], b[j + 1..]);
    RevenueConcat(b[..j], [x]);
    RevenueConcat(b[..j], b[j + 1..]);
  }

  lemma {:induction false} TotalNonNegative(ts: seq<Transaction>, kind: TransactionType)
    requires forall i :: 0 <= i < |ts| ==> ts[i].amount >= 0.0
    ensures Total(ts, kind) >= 0.0
  {
    if |ts| > 0 {
      TotalNonNegative(ts[1..], kind);
    }
  }

  /** With non-negative amounts both totals are non-negative and the margin
      never exceeds 100 percent. */
  lemma MetricsBounds(ts: seq<Transaction>)
    requires forall i :: 0 <= i < |ts| ==> ts[i].amount >= 0.0
    ensures ComputeMetrics(ts).totalRevenue >= 0.0
    ensures ComputeMetrics(ts).totalExpenses >= 0.0
    ensures ComputeMetrics(ts).profitMargin <= 100.0
  {
    TotalNonNegative(ts, Sale);
    TotalNonNegative(ts, Expense);
    var m := ComputeMetrics(ts);
    if m.totalRevenue > 0.0 {
      MarginAtMostHundred(m.totalRevenue, m.totalExpenses);
    }
  }

  /** (r - e) / r * 100 <= 100 for positive r and non-negative e. */
  lemma MarginAtMostHundred(r: real, e: real)
    requires r > 0.0 && e >= 0.0
    ensures (r - e) / r * 100.0 <= 100.0
  {
    var q := (r - e) / r;
    assert q * r == r - e;
    assert q * r <= 1.0 * r;
  }

  /** No transactions: every figure is 0, the margin included. */
  lemma EmptyMetrics()
    ensures ComputeMetrics([]) == BusinessMetrics(0.0, 0.0, 0.0, 0.0, 0)
  {
  }
}

=== FILE: product_form.dfy ===
/** The add / edit product form (components/ProductForm.tsx): prefilling
    from an existing product, and the submit checks in front of
    `onSubmit`. */
module ProductForm {
  import opened Types

  /** The form's fields; the numeric ones hold a number or nothing. */
  datatype FormState = FormState(
    name: string,
    price: Input<real>,
    costPrice: Input<real>,
    quantity: Input<int>,
    sku: string,
    description: string,
    supplier: string)

  /** The form opened for `product`, or blank for a new one. A missing cost,
      description or supplier shows as an empty field. */
  function Prefill(product: Option<Product>): (f: FormState)
    ensures product.None? ==> f == FormState("", Empty, Empty, Empty, "", "", "")
    ensures product.Some? ==>
      && f.name == product.value.name && f.sku == product.value.sku
      && f.price == Typed(product.value.price)
      && f.quantity == Typed(product.value.quantity)
      && (f.costPrice.Typed? <==> product.value.costPrice.Some?)
      && (f.costPrice.Typed? ==> f.costPrice.value == product.value.costPrice.value)
      && f.description == product.value.description.GetOr("")
      && f.supplier == product.value.supplier.GetOr("")
  {
    match product
    case None => FormState("", Empty, Empty, Empty, "", "", "")
    case Some(p) =>
      var cost := if p.costPrice.Some? then Typed(p.costPrice.value) else Empty;
      FormState(p.name, Typed(p.price), cost, Typed(p.quantity), p.sku,
                p.description.GetOr(""), p.supplier.GetOr(""))
  }

  datatype SubmitError = MissingFields | NegativeValue

  datatype Submission = Rejected(error: SubmitError) | Submitted(draft: ProductDraft)

  /** One of name, price, cost price, quantity or SKU is empty. */
  predicate HasMissingField(f: FormState) {
    f.name == "" || f.price.Empty? || f.costPrice.Empty? || f.quantity.Empty? || f.sku == ""
  }

  /** One of price, cost price or quantity is negative. */
  predicate HasNegativeValue(f: FormState) {
    || (f.price.Typed? && f.price.value < 0.0)
    || (f.costPrice.Typed? && f.costPrice.value < 0.0)
    || (f.quantity.Typed? && f.quantity.value < 0)
  }

  /** `handleSubmit`: required fields are checked first, then signs. An
      accepted product has a name, a SKU, a cost price, and no negative
      number; description and supplier are always present, possibly empty. */
  function Submit(f: FormState): (r: Submission)
    ensures r == Rejected(MissingFields) <==> HasMissingField(f)
    ensures r == Rejected(NegativeValue) <==> !HasMissingField(f) && HasNegativeValue(f)
    ensures r.Submitted? ==>
      && r.draft.name == f.name && r.draft.name != ""
      && r.draft.sku == f.sku && r.draft.sku != ""
      && f.price.Typed? && r.draft.price == f.price.value && r.draft.price >= 0.0
      && f.costPrice.Typed? && r.draft.costPrice == Some(f.costPrice.value) && f.costPrice.value >= 0.0
      && f.quantity.Typed? && r.draft.quantity == f.quantity.value && r.draft.quantity >= 0
      && r.draft.description == Some(f.description)
      && r.draft.supplier == Some(f.supplier)
  {
    if HasMissingField(f) then
      Rejected(MissingFields)
    else if f.price.value < 0.0 || f.costPrice.value < 0.0 || f.quantity.value < 0 then
      Rejected(NegativeValue)
    else
      Submitted(ProductDraft(f.name, f.price.value, Some(f.costPrice.value), f.quantity.value, f.sku,
                             Some(f.description), Some(f.supplier)))
  }

  /** The draft an unchanged edit of `p` submits: `p` without its id, with
      a missing description or supplier turned into the empty string. */
  function UnchangedDraft(p: Product): ProductDraft {
    p.Draft().(description := Some(p.description.GetOr("")), supplier := Some(p.supplier.GetOr("")))
  }

  /** Opening a valid product for editing and saving it unchanged submits
      the product's own fields. */
  lemma PrefillSubmitRoundTrip(p: Product)
    requires p.name != "" && p.sku != ""
    requires p.costPrice.Some? && p.costPrice.value >= 0.0
    requires p.price >= 0.0 && p.quantity >= 0
    ensures Submit(Prefill(Some(p))) == Submitted(UnchangedDraft(p))
  {
  }

  /** A product stored without a cost price cannot be saved until one is entered. */
  lemma MissingCostBlocksSave(p: Product)
    requires p.costPrice.None?
    ensures Submit(Prefill(Some(p))) == Rejected(MissingFields)
  {
  }

  /** The blank form for a new product is rejected as it opens. */
  lemma BlankFormRejected()
    ensures Submit(Prefill(None)) == Rejected(MissingFields)
  {
  }
}

=== FILE: reports.dfy ===
/** The reports view (components/Reports.tsx): the five products with the
    best margin, the products running low, and the latest purchases. */
module Reports {
  import opened Types
  import opened Seqs
  import opened Metrics

  /** A product's margin in percent of its price: 0 when the price is not
      positive, and a missing cost counts as 0. */
  function ProductMargin(p: Product): (m: real)
    ensures p.price <= 0.0 ==> m == 0.0
    ensures p.price > 0.0 ==> m * p.price == (p.price - p.costPrice.GetOr(0.0)) * 100.0
  {
    if p.price > 0.0 then ((p.price - p.costPrice.GetOr(0.0)) / p.price) * 100.0 else 0.0
  }

  /** With a positive price and a non-negative cost the margin is at most 100 percent. */
  lemma ProductMarginAtMostHundred(p: Product)
    requires p.price > 0.0 && p.costPrice.GetOr(0.0) >= 0.0
    ensures ProductMargin(p) <= 100.0
  {
    var m := ProductMargin(p);
    var c := p.costPrice.GetOr(0.0);
    assert m * p.price == 100.0 * p.price - 100.0 * c;
  }

  /** `{ ...p, margin }`. */
  datatype RankedProduct = RankedProduct(product: Product, margin: real)

  function Rank(p: Product): RankedProduct {
    RankedProduct(p, ProductMargin(p))
  }

  /** `products.map(...)`: every product with its margin. */
  function ProductStats(ps: seq<Product>): (r: seq<RankedProduct>)
    ensures |r| == |ps|
    ensures forall i :: 0 <= i < |ps| ==> r[i] == Rank(ps[i])
  {
    seq(|ps|, i requires 0 <= i < |ps| => Rank(ps[i]))
  }

  /** The sort key of `(a, b) => b.margin - a.margin`: larger margins first. */
  function NegatedMargin(r: RankedProduct): real {
    -r.margin
  }

  /** `profitableProducts`: at most five products, best margin first; no
      product left out has a better margin than the last one listed. */
  function ProfitableProducts(ps: seq<Product>): (r: seq<RankedProduct>)
    ensures |r| == if |ps| < 5 then |ps| else 5
    ensures forall i, j :: 0 <= i < j < |r| ==> r[i].margin >= r[j].margin
    ensures forall i :: 0 <= i < |r| ==> r[i].product in ps && r[i].margin == ProductMargin(r[i].product)
    ensures multiset(r) <= multiset(ProductStats(ps))
    ensures |r| > 0 ==> forall x :: x in multiset(ProductStats(ps)) - multiset(r) ==> x.margin <= r[|r| - 1].margin
  {
    var stats := ProductStats(ps);
    var sorted := SortBy(stats, NegatedMargin);
    var r := Take(sorted, 5);
    TopOfSorted(stats, sorted, |r|);
    assert r == sorted[..|r|];
    r
  }

  /** The first `k` elements of a sorted copy of `stats` dominate the rest,
      and together with the rest are exactly `stats`. */
  lemma TopOfSorted(stats: seq<RankedProduct>, sorted: seq<RankedProduct>, k: nat)
    requires SortedBy(sorted, NegatedMargin) && multiset(sorted) == multiset(stats)
    requires k <= |sorted|
    ensures multiset(sorted[..k]) <= multiset(stats)
    ensures forall i :: 0 <= i < k ==> sorted[i] in stats
    ensures k > 0 ==> forall x :: x in multiset(stats) - multiset(sorted[..k]) ==> x.margin <= sorted[k - 1].margin
  {
    assert sorted == sorted[..k] + sorted[k..];
    assert multiset(sorted) == multiset(sorted[..k]) + multiset(sorted[k..]);
    forall i | 0 <= i < k ensures sorted[i] in stats {
      assert sorted[i] in multiset(sorted);
    }
    if k > 0 {
      forall x | x in multiset(stats) - multiset(sorted[..k])
        ensures x.margin <= sorted[k - 1].margin
      {
        assert x in multiset(sorted[k..]);
        var j :| 0 <= j < |sorted[k..]| && sorted[k..][j] == x;
        assert sorted[k + j] == x;
        assert NegatedMargin(sorted[k - 1]) <= NegatedMargin(sorted[k + j]);
      }
    }
  }

  function Quantity(p: Product): real {
    p.quantity as real
  }

  predicate IsLowStock(p: Product) {
    p.quantity < 5
  }

  /** `lowStockProducts`: exactly the products with fewer than five units,
      each as often as listed, fewest first. */
  function LowStockProducts(ps: seq<Product>): (r: seq<Product>)
    ensures forall i, j :: 0 <= i < j < |r| ==> r[i].quantity <= r[j].quantity
    ensures forall p :: p in r <==> p in ps && p.quantity < 5
    ensures forall p :: multiset(r)[p] == if p.quantity < 5 then multiset(ps)[p] else 0
  {
    var low := Filter(ps, IsLowStock);
    var r := SortBy(low, Quantity);
    assert forall i, j :: 0 <= i < j < |r| ==> Quantity(r[i]) <= Quantity(r[j]);
    assert forall p :: p in r <==> p in multiset(low);
    r
  }

  /** `purchaseHistory`: the first five expenses, or all of them if fewer,
      in their original order. */
  function PurchaseHistory(ts: seq<Transaction>): (r: seq<Transaction>)
    ensures |r| == if |Filter(ts, IsExpense)| < 5 then |Filter(ts, IsExpense)| else 5
    ensures forall i :: 0 <= i < |r| ==> r[i] == Filter(ts, IsExpense)[i]
    ensures forall i :: 0 <= i < |r| ==> r[i].kind == Expense
    ensures SubsequenceOf(r, ts)
    ensures |r| < 5 ==> forall t :: t in ts && t.kind == Expense ==> t in r
  {
    var expenses := Filter(ts, IsExpense);
    var r := Take(expenses, 5);
    assert r == expenses[..|r|];
    PrefixIsSubsequence(expenses, |r|);
    SubsequenceTransitive(r, expenses, ts);
    forall i | 0 <= i < |r| ensures r[i].kind == Expense {
      assert r[i] in expenses;
    }
    r
  }
}

=== FILE: seqs.dfy ===
/** The list combinators the views are built from: `filter`, a stable
    `sort` by a numeric key, and `slice(0, n)`. */
module Seqs {

  /** `a` is `b` with some elements deleted and the rest kept in order. */
  predicate SubsequenceOf<T(==)>(a: seq<T>, b: seq<T>)
    decreases |b|
  {
    if |a| == 0 then true
    else if |b| == 0 then false
    else (a[0] == b[0] && SubsequenceOf(a[1..], b[1..])) || SubsequenceOf(a, b[1..])
  }

  /** `rel` holds of every pair of elements taken in list order. */
  predicate Pairwise<T>(s: seq<T>, rel: (T, T) -> bool) {
    forall i, j :: 0 <= i < j < |s| ==> rel(s[i], s[j])
  }

  /** `s.filter(keep)`: the elements satisfying `keep`, each as often as in
      `s`, in their original order. */
  function Filter<T(==,!new)>(s: seq<T>, keep: T -> bool): (r: seq<T>)
    ensures |r| <= |s|
    ensures SubsequenceOf(r, s)
    ensures forall x {:trigger x in r} :: x in r <==> x in s && keep(x)
    ensures forall x {:trigger multiset(r)[x]} :: multiset(r)[x] == if keep(x) then multiset(s)[x] else 0
  {
    if |s| == 0 then []
    else
      assert s == [s[0]] + s[1..];
      if keep(s[0]) then [s[0]] + Filter(s[1..], keep)
      else Filter(s[1..], keep)
  }

  /** A filter that rejects nothing returns its input. */
  lemma {:induction false} FilterKeepsAll<T(!new)>(s: seq<T>, keep: T -> bool)
    requires forall i :: 0 <= i < |s| ==> keep(s[i])
    ensures Filter(s, keep) == s
  {
    if |s| > 0 {
      FilterKeepsAll(s[1..], keep);
    }
  }

  /** A filter that keeps nothing returns the empty list. */
  lemma {:induction false} FilterDropsAll<T(!new)>(s: seq<T>, keep: T -> bool)
    requires forall i :: 0 <= i < |s| ==> !keep(s[i])
    ensures Filter(s, keep) == []
  {
    if |s| > 0 {
      FilterDropsAll(s[1..], keep);
    }
  }

  /** Whatever holds of every ordered pair of a list holds of every ordered
      pair of a filtered copy. */
  lemma {:induction false} FilterPairwise<T(!new)>(s: seq<T>, keep: T -> bool, rel: (T, T) -> bool)
    requires Pairwise(s, rel)
    ensures Pairwise(Filter(s, keep), rel)
  {
    if |s| > 0 {
      var rest := Filter(s[1..], keep);
      assert Pairwise(s[1..], rel) by {
        forall i, j | 0 <= i < j < |s[1..]|
          ensures rel(s[1..][i], s[1..][j])
        {
          assert s[1..][i] == s[i + 1] && s[1..][j] == s[j + 1];
        }
      }
      FilterPairwise(s[1..], keep, rel);
      if keep(s[0]) {
        var r := [s[0]] + rest;
        forall i, j | 0 <= i < j < |r|
          ensures rel(r[i], r[j])
        {
          if i == 0 {
            assert r[j] == rest[j - 1];
            assert rest[j - 1] in rest;
            assert rest[j - 1] in s[1..];
            var k :| 0 <= k < |s[1..]| && s[1..][k] == rest[j - 1];
            assert s[k + 1] == r[j];
          } else {
            assert r[i] == rest[i - 1] && r[j] == rest[j - 1];
          }
        }
      }
    }
  }

  /** A prefix is a subsequence. */
  lemma {:induction false} PrefixIsSubsequence<T>(s: seq<T>, n: nat)
    requires n <= |s|
    ensures SubsequenceOf(s[..n], s)
  {
    if n > 0 {
      PrefixIsSubsequence(s[1..], n - 1);
      assert s[..n][1..] == s[1..][..n - 1];
    }
  }

  /** A subsequence of a subsequence is a subsequence. */
  lemma {:induction false} SubsequenceTransitive<T>(a: seq<T>, b: seq<T>, c: seq<T>)
    requires SubsequenceOf(a, b) && SubsequenceOf(b, c)
    ensures SubsequenceOf(a, c)
    decreases |c|
  {
    if |a| > 0 {
      assert |b| > 0 && |c| > 0;
      if b[0] == c[0] && SubsequenceOf(b[1..], c[1..]) {
        if a[0] == b[0] && SubsequenceOf(a[1..], b[1..]) {
          SubsequenceTransitive(a[1..], b[1..], c[1..]);
        } else {
          SubsequenceTransitive(a, b[1..], c[1..]);
        }
      } else {
        SubsequenceTransitive(a, b, c[1..]);
      }
    }
  }

  /** `s` is ordered by non-decreasing `key`. */
  predicate SortedBy<T>(s: seq<T>, key: T -> real) {
    forall i, j :: 0 <= i < j < |s| ==> key(s[i]) <= key(s[j])
  }

  /** Inserts `x` into a sorted list in front of the first element whose key
      is not smaller, so `x` precedes the elements it ties with. */
  function Insert<T(==)>(x: T, s: seq<T>, key: T -> real): (r: seq<T>)
    requires SortedBy(s, key)
    ensures SortedBy(r, key)
    ensures multiset(r) == multiset(s) + multiset{x}
    ensures |r| == |s| + 1
    ensures key(r[0]) == key(x) || (|s| > 0 && key(r[0]) == key(s[0]))
  {
    if |s| == 0 then [x]
    else if key(x) <= key(s[0]) then [x] + s
    else
      assert SortedBy(s[1..], key);
      var rest := Insert(x, s[1..], key);
      assert s == [s[0]] + s[1..];
      assert forall j :: 0 <= j < |rest| ==> key(rest[0]) <= key(rest[j]);
      [s[0]] + rest
  }

  /** `s.sort((a, b) => key(a) - key(b))`: a stable insertion sort. The
      result is ordered by key and holds the same elements, as often. */
  function SortBy<T(==)>(s: seq<T>, key: T -> real): (r: seq<T>)
    ensures SortedBy(r, key)
    ensures multiset(r) == multiset(s)
    ensures |r| == |s|
  {
    if |s| == 0 then []
    else
      assert s == [s[0]] + s[1..];
      Insert(s[0], SortBy(s[1..], key), key)
  }

  /** `s.slice(0, n)`: the first `n` elements, or all of them if fewer. */
  function Take<T>(s: seq<T>, n: nat): (r: seq<T>)
    ensures |r| == if |s| < n then |s| else n
    ensures forall i :: 0 <= i < |r| ==> r[i] == s[i]
  {
    if |s| < n then s else s[..n]
  }
}

=== FILE: storage.dfy ===
/** Start-up loading of the product list (App.tsx). The stored list is
    kept only when it looks current: non-empty, with a `costPrice` on its
    first record. Otherwise the five sample products are used. Reading
    the browser store and parsing JSON happen before this: the input is
    the already-parsed list, `None` when the slot is absent or unparsable. */
module ProductStore {
  import opened Types

  /** The five sample products. */
  function Seeds(): (ps: seq<Product>)
    ensures |ps| == 5
    ensures DistinctProductIds(ps)
    ensures forall i :: 0 <= i < |ps| ==>
      && ps[i].costPrice.Some?
      && 0.0 <= ps[i].costPrice.value <= ps[i].price
      && ps[i].quantity >= 0
      && ps[i].name != "" && ps[i].sku != ""
  {
    [ Product("p1", "Wireless Headphones", 99.99, Some(45.00), 15, "WH-001",
              Some("Noise cancelling high fidelity headphones"), None),
      Product("p2", "Mechanical Keyboard", 149.50, Some(85.00), 8, "MK-204",
              Some("RGB backlit mechanical keyboard with blue switches"), None),
      Product("p3", "Ergonomic Mouse", 59.99, Some(25.00), 24, "EM-102",
              Some("Vertical mouse for better wrist health"), None),
      Product("p4", "USB-C Hub", 34.99, Some(12.50), 42, "UH-550",
              Some("7-in-1 USB-C adapter for laptops"), None),
      Product("p5", "Monitor Stand", 45.00, Some(18.00), 5, "MS-900",
              Some("Adjustable wooden monitor stand"), None) ]
  }

  /** `parsed.length > 0 && 'costPrice' in parsed[0]`. */
  predicate LooksCurrent(ps: seq<Product>) {
    |ps| > 0 && ps[0].costPrice.Some?
  }

  /** The initial product list. */
  function LoadProducts(stored: Option<seq<Product>>): (r: seq<Product>)
    ensures stored.Some? ==> (r == stored.value <==> LooksCurrent(stored.value))
    ensures !(stored.Some? && LooksCurrent(stored.value)) ==> r == Seeds()
    ensures LooksCurrent(r)
  {
    if stored.Some? && LooksCurrent(stored.value) then stored.value else Seeds()
  }

  /** Loading a list that was just loaded returns it unchanged. Loading an
      empty list, as saved after every product is deleted, still reseeds. */
  lemma LoadIdempotent(stored: Option<seq<Product>>)
    ensures LoadProducts(Some(LoadProducts(stored))) == LoadProducts(stored)
  {
  }

  /** An empty stored list is replaced by the five seeds, each with a cost price. */
  lemma EmptyStoreSeeds()
    ensures LoadProducts(Some([])) == Seeds()
    ensures |LoadProducts(Some([]))| == 5
    ensures forall i :: 0 <= i < 5 ==> LoadProducts(Some([]))[i].costPrice.Some?
  {
  }
}

=== FILE: transaction_form.dfy ===
/** The sale / expense entry form (components/TransactionForm.tsx): its
    initial state, the product auto-fill, and the submit checks that decide
    whether `addTransaction` is called and with what. */
module TransactionForm {
  import opened Types

  /** The category vocabulary offered per kind (constants.ts). */
  function Categories(kind: TransactionType): (cs: seq<string>)
    ensures |cs| > 0 && cs[|cs| - 1] == "Other"
  {
    match kind
    case Sale => ["Product", "Service", "Subscription", "Consulting", "Other"]
    case Expense => ["Rent", "Salaries", "Marketing", "Software", "Utilities", "Inventory", "Other"]
  }

  /** The form's fields. `amount` and `quantity` are text inputs holding a
      number or nothing; `selectedProductId` is `""` when no product is chosen. */
  datatype FormState = FormState(
    kind: TransactionType,
    amount: Input<real>,
    category: string,
    description: string,
    date: string,
    selectedProductId: string,
    quantity: Input<int>,
    supplier: string)

  /** The form as it opens: the first category of its kind, quantity 1,
      everything else blank, and the given day as date. */
  function InitialForm(kind: TransactionType, today: string): (f: FormState)
    ensures f.kind == kind && f.date == today
    ensures f.category in Categories(kind) && f.category == Categories(kind)[0]
    ensures f.amount.Empty? && f.selectedProductId == "" && f.quantity == Typed(1)
    ensures f.description == "" && f.supplier == ""
  {
    FormState(kind, Empty, Categories(kind)[0], "", today, "", Typed(1), "")
  }

  /** `parseInt(quantity || '0')`. */
  function QuantityOrZero(f: FormState): int {
    if f.quantity.Typed? then f.quantity.value else 0
  }

  /** The auto-fill effect: when a sale names an existing product, the amount
      becomes its price times the quantity and the description its name.
      Nothing else changes, and nothing at all when no product matches. */
  function AutoFill(f: FormState, products: seq<Product>): (g: FormState)
    ensures f.selectedProductId != "" && f.kind == Sale && FindProduct(products, f.selectedProductId).Some? ==>
      var p := FindProduct(products, f.selectedProductId).value;
      && g.amount.Typed? && g.amount.value == p.price * QuantityOrZero(f) as real
      && g == f.(amount := g.amount, description := p.name)
    ensures !(f.selectedProductId != "" && f.kind == Sale && FindProduct(products, f.selectedProductId).Some?) ==>
      g == f
  {
    var found := FindProduct(products, f.selectedProductId);
    if f.selectedProductId != "" && f.kind == Sale && found.Some? then
      f.(amount := Typed(found.value.price * QuantityOrZero(f) as real), description := found.value.name)
    else f
  }

  datatype SubmitError = InvalidAmount | InsufficientStock(available: int)

  /** Either the error shown, or the arguments passed to `onSubmit`
      (`addTransaction`): the draft, the selected product id and
      `parseInt(quantity)`, `None` when that is not a number. */
  datatype Submission =
    | Rejected(error: SubmitError)
    | Submitted(draft: TransactionDraft, productId: string, quantity: Option<int>)

  /** `amount` is filled and positive. */
  predicate AmountValid(f: FormState) {
    f.amount.Typed? && f.amount.value > 0.0
  }

  /** The product a sale names, if it exists. */
  function SelectedProduct(f: FormState, products: seq<Product>): Option<Product> {
    if f.kind == Sale && f.selectedProductId != "" then FindProduct(products, f.selectedProductId) else None
  }

  /** The requested quantity exceeds the stock of the named product. */
  predicate Oversold(f: FormState, products: seq<Product>) {
    && SelectedProduct(f, products).Some?
    && f.quantity.Typed?
    && f.quantity.value > SelectedProduct(f, products).value.quantity
  }

  /** `handleSubmit`. The amount check comes first; then a sale may not ask
      for more than the named product's stock. An accepted payload carries
      the form's kind and a positive amount, and a supplier exactly when it
      is an expense. */
  function Submit(f: FormState, products: seq<Product>): (r: Submission)
    ensures r == Rejected(InvalidAmount) <==> !AmountValid(f)
    ensures (r.Rejected? && r.error.InsufficientStock?) <==> AmountValid(f) && Oversold(f, products)
    ensures r.Rejected? && r.error.InsufficientStock? ==>
      r.error.available == SelectedProduct(f, products).value.quantity
    ensures r.Submitted? ==>
      && r.draft.kind == f.kind
      && r.draft.amount == f.amount.value && r.draft.amount > 0.0
      && r.draft.category == f.category
      && r.draft.description == f.description
      && r.draft.date == f.date
      && (r.draft.supplier.Some? <==> f.kind == Expense)
      && (f.kind == Expense ==> r.draft.supplier == Some(f.supplier))
      && r.productId == f.selectedProductId
      && (r.quantity.Some? <==> f.quantity.Typed?)
      && (f.quantity.Typed? ==> r.quantity == Some(f.quantity.value))
  {
    if f.amount.Empty? || f.amount.value <= 0.0 then
      Rejected(InvalidAmount)
    else if Oversold(f, products) then
      Rejected(InsufficientStock(SelectedProduct(f, products).value.quantity))
    else
      var supplier := if f.kind == Expense then Some(f.supplier) else None;
      var quantity := if f.quantity.Typed? then Some(f.quantity.value) else None;
      Submitted(TransactionDraft(f.kind, f.amount.value, f.category, f.description, f.date, supplier),
                f.selectedProductId, quantity)
  }

  /** A form cannot be submitted as it opens: the amount must be entered. */
  lemma InitialFormRejected(kind: TransactionType, today: string, products: seq<Product>)
    ensures Submit(InitialForm(kind, today), products) == Rejected(InvalidAmount)
  {
  }

  /** An accepted sale that names an existing product asks for no more than
      that product's stock. */
  lemma SubmittedSaleWithinStock(f: FormState, products: seq<Product>)
    requires Submit(f, products).Submitted?
    requires f.kind == Sale && f.selectedProductId != ""
    requires FindProduct(products, f.selectedProductId).Some?
    requires Submit(f, products).quantity.Some?
    ensures Submit(f, products).quantity.value <= FindProduct(products, f.selectedProductId).value.quantity
  {
  }

  /** Choosing a product and a quantity within its stock, at a positive
      price, yields a form that submits as a sale of that product: amount
      price times quantity, described by the product's name, no supplier. */
  lemma AutoFilledSaleAccepted(f: FormState, products: seq<Product>, q: int)
    requires f.kind == Sale && f.selectedProductId != ""
    requires FindProduct(products, f.selectedProductId).Some?
    requires FindProduct(products, f.selectedProductId).value.price > 0.0
    requires f.quantity == Typed(q)
    requires 1 <= q <= FindProduct(products, f.selectedProductId).value.quantity
    ensures var p := FindProduct(products, f.selectedProductId).value;
      Submit(AutoFill(f, products), products)
      == Submitted(TransactionDraft(Sale, p.price * q as real, f.category, p.name, f.date, None),
                   f.selectedProductId, Some(q))
  {
    var p := FindProduct(products, f.selectedProductId).value;
    assert p.price * q as real > 0.0 by {
      assert q as real >= 1.0;
      assert p.price * q as real >= p.price * 1.0;
    }
  }
}

=== FILE: types.dfy ===
/** The records of the bookkeeping ledger: transactions, products and the
    metrics derived from them (types.ts), plus the small wrappers the rest of
    the model shares. */
module Types {

  /** An optional value: a JavaScript property that may be `undefined`. */
  datatype Option<T> = None | Some(value: T) {

    /** The value, or `default` when absent (the `x || default` idiom for
        values whose only falsy form is absence). */
    function GetOr(default: T): T {
      if Some? then value else default
    }
  }

  /** The text of a numeric form field: either left empty (the falsy `''`)
      or holding a well-formed number. */
  datatype Input<T> = Empty | Typed(value: T)

  datatype TransactionType = Sale | Expense

  /** A recorded transaction. The source's `type` field is called `kind`
      here, since `type` is a Dafny keyword. */
  datatype Transaction = Transaction(
    id: string,
    kind: TransactionType,
    amount: real,
    category: string,
    description: string,
    date: string,
    supplier: Option<string>)
  {
    /** The transaction without its identifier (`Omit<Transaction, 'id'>`). */
    function Draft(): (d: TransactionDraft)
      ensures d.WithId(id) == this
    {
      TransactionDraft(kind, amount, category, description, date, supplier)
    }
  }

  /** The payload a caller hands to `addTransaction`: every field but `id`. */
  datatype TransactionDraft = TransactionDraft(
    kind: TransactionType,
    amount: real,
    category: string,
    description: string,
    date: string,
    supplier: Option<string>)
  {
    /** `{ ...draft, id }`: the draft completed with an identifier. */
    function WithId(id: string): (t: Transaction)
      ensures t.id == id
      ensures t.kind == kind && t.amount == amount && t.category == category
      ensures t.description == description && t.date == date && t.supplier == supplier
    {
      Transaction(id, kind, amount, category, description, date, supplier)
    }
  }

  /** A stocked product. `costPrice` is declared required, but records saved
      by earlier versions lack it and the code tests for its presence, so it
      is optional here. */
  datatype Product = Product(
    id: string,
    name: string,
    price: real,
    costPrice: Option<real>,
    quantity: int,
    sku: string,
    description: Option<string>,
    supplier: Option<string>)
  {
    /** The product without its identifier (`Omit<Product, 'id'>`). */
    function Draft(): (d: ProductDraft)
      ensures d.WithId(id) == this
    {
      ProductDraft(name, price, costPrice, quantity, sku, description, supplier)
    }
  }

  /** The payload of `addProduct` and `editProduct`: every field but `id`. */
  datatype ProductDraft = ProductDraft(
    name: string,
    price: real,
    costPrice: Option<real>,
    quantity: int,
    sku: string,
    description: Option<string>,
    supplier: Option<string>)
  {
    /** `{ ...draft, id }`: the draft completed with an identifier. */
    function WithId(id: string): (p: Product)
      ensures p.id == id
      ensures p.name == name && p.price == price && p.costPrice == costPrice
      ensures p.quantity == quantity && p.sku == sku
      ensures p.description == description && p.supplier == supplier
    {
      Product(id, name, price, costPrice, quantity, sku, description, supplier)
    }
  }

  datatype BusinessMetrics = BusinessMetrics(
    totalRevenue: real,
    totalExpenses: real,
    netProfit: real,
    profitMargin: real,
    transactionCount: nat)

  /** No two transactions share an identifier. */
  predicate DistinctTransactionIds(ts: seq<Transaction>) {
    forall i, j :: 0 <= i < j < |ts| ==> ts[i].id != ts[j].id
  }

  /** No two products share an identifier. */
  predicate DistinctProductIds(ps: seq<Product>) {
    forall i, j :: 0 <= i < j < |ps| ==> ps[i].id != ps[j].id
  }

  /** `products.find(p => p.id === id)`: the first product with that id. */
  function FindProduct(ps: seq<Product>, id: string): (r: Option<Product>)
    ensures r.None? <==> forall p :: p in ps ==> p.id != id
    ensures r.Some? ==> r.value in ps && r.value.id == id
    ensures r.Some? ==> exists k :: 0 <= k < |ps| && ps[k] == r.value && forall j :: 0 <= j < k ==> ps[j].id != id
  {
    if |ps| == 0 then None
    else if ps[0].id == id then Some(ps[0])
    else
      var rest := FindProduct(ps[1..], id);
      if rest.Some? then
        var k :| 0 <= k < |ps[1..]| && ps[1..][k] == rest.value && forall j :: 0 <= j < k ==> ps[1..][j].id != id;
        assert ps[k + 1] == rest.value;
        assert forall j :: 0 <= j < k + 1 ==> ps[j].id != id by {
          forall j | 0 <= j < k + 1 ensures ps[j].id != id {
            if j > 0 { assert ps[j] == ps[1..][j - 1]; }
          }
        }
        rest
      else rest
  }

  /** With distinct identifiers, looking up a listed product's id finds that very product. */
  lemma {:induction false} FindDistinct(ps: seq<Product>, i: int)
    requires DistinctProductIds(ps)
    requires 0 <= i < |ps|
    ensures FindProduct(ps, ps[i].id) == Some(ps[i])
  {
    if i > 0 {
      assert ps[0].id != ps[i].id;
      assert DistinctProductIds(ps[1..]) by {
        forall a, b | 0 <= a < b < |ps[1..]|
          ensures ps[1..][a].id != ps[1..][b].id
        {
          assert ps[1..][a] == ps[a + 1] && ps[1..][b] == ps[b + 1];
        }
      }
      FindDistinct(ps[1..], i - 1);
      assert ps[1..][i - 1] == ps[i];
    }
  }
}
